=== FILE: README.md ===
# LRU-cached range sums, modelled in Dafny

This project models `task_01/task_01.py`: a benchmark of
inclusive range-sum queries over a mutable integer array, answered either
directly or through a bounded least-recently-used (LRU) store of earlier answers
keyed by the query range `(left, right)`.

- `wrappers.dfy` — `Option`, used by the lookup.
- `lru.dfy`, module `Lru` — the `LRUCache` class. Its `OrderedDict` is a
  sequence of `(key, value)` entries in recency order: least recent first,
  most recent last, with keys pairwise distinct (`Valid`). `Bounded` is the
  size bound `|entries| <= capacity`. `Get`, `Put` and `Delete` are pure
  functions that return the new store.
- `range_cache.dfy`, module `RangeCache` — the range-sum functions with and
  without the cache. The module-level store becomes an explicit value that
  each cached operation takes and returns. `Consistent(c, a)` is the central
  invariant: every cached answer is the true sum of its range on the current
  array. The two benchmark drivers become folds over a query list, so that the
  cached and uncached runs can be compared.

Three behaviours of the code are modelled as written:

- `get` signals a miss with the integer `-1` (`Miss`), not with a tagged
  result. A cached sum that really is `-1` is therefore recomputed.
  `SentinelValueStillCorrect` shows that this only costs a recomputation: the
  answer and the store end up exactly as a hit would leave them.
- The capacity is not checked at construction (`Init` accepts any integer).
  With capacity `0`, a `put` evicts the entry it has just stored.
- Deleting a key uses `del`, which fails on an absent key. `Delete` therefore
  requires the key to be present. The invalidation scan only deletes keys it
  has just read from the store, and `DeleteAll` proves that they are all still
  present when deleted.

## Model

| member | source | states |
|---|---|---|
| `Lru.Init` | task_01/task_01.py:9-11 | a new store is empty, keeps the given capacity, has distinct keys, and is within its bound whenever the capacity is non-negative |
| `Lru.Lookup` | task_01/task_01.py:15-17 | finds a value exactly when the key is stored, and the value found is the one stored with that key |
| `Lru.Get` | task_01/task_01.py:13-18 | a hit returns the value stored with the key and makes the key the most recent entry, with the same entries and size and the other entries in their previous relative order; a miss returns -1 and leaves the store unchanged |
| `Lru.Put` | task_01/task_01.py:20-26 | keys stay distinct; no entry appears other than the one put; the size bound is preserved; with capacity at least 1 the key put is the most recent entry with the new value; on a store within its bound, overwriting keeps the size and evicts nothing; a new key with room grows the store by one; a new key into a full store evicts exactly the least recent entry and keeps the rest in order |
| `Lru.Delete` | task_01/task_01.py:64 | deleting a present key removes exactly that entry: the size drops by one, the key set loses that key, and every other entry remains, in its previous recency order |
| `Lru.GetProtectsFromNextEviction` | task_01/task_01.py:13-26 | after a hit on a key, the next put of a different key into a full store with capacity at least 2 does not evict the key just read |
| `Lru.PutAll` | task_01/task_01.py:20-26 | a sequence of puts keeps keys distinct and the capacity, and every entry of the result was either already stored or one of the pairs put |
| `Lru.HitSurvivesPuts` | task_01/task_01.py:13-26 | after a hit on a key, fewer than `capacity` puts of other keys never evict it, whatever the store's size |
| `RangeCache.NewStore` | task_01/task_01.py:44 | the store the program starts from has capacity 1000, is within its bound, and is consistent with every array |
| `RangeCache.RangeSumNoCache` | task_01/task_01.py:32-34 | adding up the elements from `left` to `right` one at a time gives the recursive definition of their sum, both ends included |
| `RangeCache.UpdateNoCache` | task_01/task_01.py:36-38 | the new array has the same length and holds `value` at `index`; every other position is unchanged |
| `RangeCache.UpdateOutsideRange` | task_01/task_01.py:36-38 | the sum of a range that does not contain the updated index is the same before and after the update |
| `RangeCache.RangeSumWithCache` | task_01/task_01.py:46-53 | a hit on a non-sentinel value answers with the cached value and keeps the size and the other entries in their previous order; a miss, including a stored -1, answers with the true sum; on a consistent store the answer is always the true sum and the store stays consistent; keys stay distinct, the bound is kept, and with capacity at least 1 the queried range ends as the most recent entry |
| `RangeCache.SentinelValueStillCorrect` | task_01/task_01.py:46-53 | when the cached true sum of a range equals the -1 sentinel, the recomputation answers -1 and leaves the store exactly as a plain hit would |
| `RangeCache.RepeatedQueryStable` | task_01/task_01.py:46-53 | two identical queries in a row, on a bounded store of capacity at least 1 with no update in between, give the same answer, and the second leaves the store as the first left it |
| `RangeCache.HitMovesToEnd` | task_01/task_01.py:46-53 | a hit on a non-sentinel value leaves exactly the previous entries with the queried range moved to the most recent end, and answers with its value |
| `RangeCache.StoredSentinelRecomputed` | task_01/task_01.py:46-53 | on any store within its bound, consistent with the array or not, a stored -1 is recomputed: the answer is the true sum, the range moves to the most recent end with that sum, and every other entry keeps its value and its order |
| `RangeCache.MissWithRoom` | task_01/task_01.py:46-53 | a miss on a store with room appends the computed sum as the most recent entry and evicts nothing |
| `RangeCache.MissWhenFull` | task_01/task_01.py:46-53 | a miss on a full store drops the least recent entry and appends the computed sum |
| `RangeCache.Invalidate` | task_01/task_01.py:58-64 | the surviving entries are exactly those whose range does not contain the index; they keep their relative order and their keys stay distinct |
| `RangeCache.UpdateWithCache` | task_01/task_01.py:55-64 | the array is updated at `index` only; no cached range containing `index` remains; every other entry stays with its value and in its relative order; the bound is kept; a consistent store stays consistent with the new array |
| `RangeCache.CollectCovering` | task_01/task_01.py:59-62 | the first pass collects each stored key whose range contains the index, once, and no other key |
| `RangeCache.DeleteAll` | task_01/task_01.py:63-64 | deleting the collected keys one at a time never deletes an absent key, and removes exactly the entries with those keys |
| `RangeCache.UpdateWithCacheScan` | task_01/task_01.py:55-64 | the two-pass scan gives the same store and array as the invalidation that `UpdateWithCache` describes |
| `RangeCache.ScenarioFirstMiss` | task_01/task_01.py:46-53 | on `[1, 2, 3, 4, 5]` with capacity 2, querying `(0, 2)` on the empty store answers 6 and stores it |
| `RangeCache.ScenarioHit` | task_01/task_01.py:46-53 | querying `(0, 2)` again answers 6 and changes nothing |
| `RangeCache.ScenarioSecondMiss` | task_01/task_01.py:46-53 | querying `(3, 4)` answers 9 and fills the store |
| `RangeCache.ScenarioEviction` | task_01/task_01.py:20-26 | querying `(1, 3)` on the full store answers 9 and evicts the least recent `(0, 2)` |
| `RangeCache.ScenarioUpdate` | task_01/task_01.py:55-64 | setting index 2 to 10 drops `(1, 3)`, which contains it, and keeps `(3, 4)` |
| `RangeCache.ScenarioRecompute` | task_01/task_01.py:46-53 | querying `(1, 3)` after the update misses and answers 16 on the new array |
| `RangeCache.RunNoCache` | task_01/task_01.py:92-97 | the uncached driver keeps the array length and gives one answer per `Range` query |
| `RangeCache.RunWithCache` | task_01/task_01.py:99-104 | the cached driver keeps keys distinct, the capacity and the bound, keeps the array length, and gives one answer per `Range` query |
| `RangeCache.CachedRunMatchesUncached` | task_01/task_01.py:92-104 | from any consistent store, for every list of in-bounds queries, the cached run ends with the same array and gives the same answers as the uncached run, and its final store is consistent with the final array |
| `RangeCache.FreshStoreRunMatchesUncached` | task_01/task_01.py:44-104 | from the program's initial store, the cached run answers every query list exactly as the uncached run does, and stays within capacity |

## Left out

- Query generation (`make_queries`) is left out: it is random.
- The timing and printing in the `__main__` block are left out: they use the
  wall clock, floating point and output.
- `RunNoCache` and `RunWithCache` return the answers. The source's drivers
  discard them; the model records them so that the two drivers can be
  compared.
- Python slicing and indexing with negative or out-of-range bounds are left
  out. Every range requires `0 <= left <= right < |a|` and every update
  requires `0 <= index < |a|`. The source does not check these; its callers
  only produce such queries.
- The hash table and linked list inside `OrderedDict` and its constant-time
  costs are left out. Only the ordered contents are modelled.
- Values are integers and so are sums. Python integers do not overflow, so
  there is no wrap-around to model.
- `RunNoCache`: its contract states only lengths. Its relation to the cached
  driver is stated by `CachedRunMatchesUncached`.
- `RunWithCache`: its contract states only that the store invariants and
  lengths are kept. Its answers are characterised by
  `CachedRunMatchesUncached`.

=== FILE: lru.dfy ===
/**
 The bounded least-recently-used store of task_01/task_01.py (`LRUCache`).

 The `OrderedDict` behind the store is modelled by what can be observed of it:
 a sequence of key/value entries in recency order, least recent first and most
 recent last, whose keys are pairwise distinct. Values are integers, because
 a miss is signalled by the integer sentinel -1.
 */
module Lru {
  import opened Wrappers

  /** What `get` returns for an absent key. */
  const Miss: int := -1

  datatype Cache<K> = Cache(capacity: int, entries: seq<(K, int)>)

  /** The keys currently stored. */
  function Keys<K>(s: seq<(K, int)>): set<K>
  {
    set e | e in s :: e.0
  }

  /** No key occurs twice: the representation invariant of a dictionary. */
  predicate Distinct<K(==,!new)>(s: seq<(K, int)>)
  {
    forall i, j :: 0 <= i < j < |s| ==> s[i].0 != s[j].0
  }

  predicate Valid<K(==,!new)>(c: Cache<K>)
  {
    Distinct(c.entries)
  }

  /** The size bound the store is meant to keep. */
  predicate Bounded<K>(c: Cache<K>)
  {
    |c.entries| <= c.capacity
  }

  /** The most recently used entry. */
  function Last<T>(s: seq<T>): T
    requires |s| > 0
  {
    s[|s| - 1]
  }

  /** `r` is `s` with some entries left out and the rest in their original order. */
  predicate Sublist<T(==)>(r: seq<T>, s: seq<T>)
    decreases |s|
  {
    if |r| == 0 then true
    else if |s| == 0 then false
    else (r[0] == s[0] && Sublist(r[1..], s[1..])) || Sublist(r, s[1..])
  }

  /** `LRUCache(capacity)`: an empty store; the capacity is not checked. */
  function Init<K(==,!new)>(capacity: int): (c: Cache<K>)
    ensures Valid(c) && c.capacity == capacity
    ensures forall k :: k !in Keys(c.entries)
    ensures capacity >= 0 ==> Bounded(c)
  {
    Cache(capacity, [])
  }

  /** The value stored under `k`, found by a scan from the least recent end. */
  function Lookup<K(==,!new)>(s: seq<(K, int)>, k: K): (r: Option<int>)
    ensures r.Some? ==> (k, r.value) in s
    ensures r.None? <==> k !in Keys(s)
  {
    if |s| == 0 then None
    else if s[0].0 == k then Some(s[0].1)
    else
      assert forall e :: e in s ==> e == s[0] || e in s[1..];
      Lookup(s[1..], k)
  }

  /** The entries without the one stored under `k`, in their original order. */
  function Remove<K(==,!new)>(s: seq<(K, int)>, k: K): (r: seq<(K, int)>)
    ensures forall e :: e in r <==> e in s && e.0 != k
    ensures k !in Keys(s) ==> r == s
    ensures |r| <= |s|
    ensures Sublist(r, s)
  {
    if |s| == 0 then []
    else
      assert forall e :: e in s ==> e == s[0] || e in s[1..];
      var rest := Remove(s[1..], k);
      if s[0].0 == k then
        SublistSkip(s, rest);
        rest
      else
        SublistKeep(s, rest);
        [s[0]] + rest
  }

  /** The entries whose keys are not in `ks`, in their original order. */
  function WithoutKeys<K(==,!new)>(s: seq<(K, int)>, ks: set<K>): (r: seq<(K, int)>)
    ensures forall e :: e in r <==> e in s && e.0 !in ks
    ensures Sublist(r, s)
  {
    if |s| == 0 then []
    else
      assert forall e :: e in s ==> e == s[0] || e in s[1..];
      var rest := WithoutKeys(s[1..], ks);
      if s[0].0 in ks then
        SublistSkip(s, rest);
        rest
      else
        SublistKeep(s, rest);
        [s[0]] + rest
  }

  lemma SublistSkip<T>(s: seq<T>, r: seq<T>)
    requires |s| > 0 && Sublist(r, s[1..])
    ensures Sublist(r, s)
  {
  }

  lemma SublistKeep<T>(s: seq<T>, r: seq<T>)
    requires |s| > 0 && Sublist(r, s[1..])
    ensures Sublist([s[0]] + r, s)
  {
    assert ([s[0]] + r)[1..] == r;
  }

  lemma DistinctCons<K(!new)>(x: (K, int), t: seq<(K, int)>)
    requires Distinct(t) && x.0 !in Keys(t)
    ensures Distinct([x] + t)
  {
    var s := [x] + t;
    forall i, j | 0 <= i < j < |s|
      ensures s[i].0 != s[j].0
    {
      if i == 0 {
        assert s[j] == t[j - 1] && s[j] in t;
      }
    }
  }

  lemma DistinctSnoc<K(!new)>(t: seq<(K, int)>, x: (K, int))
    requires Distinct(t) && x.0 !in Keys(t)
    ensures Distinct(t + [x])
  {
    var s := t + [x];
    forall i, j | 0 <= i < j < |s|
      ensures s[i].0 != s[j].0
    {
      if j == |t| {
        assert s[i] == t[i] && s[i] in t;
      }
    }
  }

  /** In a sequence with distinct keys, the first key does not recur. */
  lemma DistinctHead<K(!new)>(s: seq<(K, int)>)
    requires Distinct(s) && |s| > 0
    ensures s[0].0 !in Keys(s[1..])
  {
    forall e | e in s[1..]
      ensures e.0 != s[0].0
    {
      var j :| 0 <= j < |s| - 1 && s[1..][j] == e;
      assert s[j + 1] == e;
    }
  }

  /** In a sequence with distinct keys, the last key does not occur earlier. */
  lemma DistinctLast<K(!new)>(s: seq<(K, int)>)
    requires Distinct(s) && |s| > 0
    ensures Last(s).0 !in Keys(s[..|s| - 1])
  {
    forall e | e in s[..|s| - 1]
      ensures e.0 != Last(s).0
    {
      var j :| 0 <= j < |s| - 1 && s[..|s| - 1][j] == e;
      assert s[j] == e;
    }
  }

  /** Moving the most recent entry to the end again changes nothing. */
  lemma RemoveLast<K(!new)>(s: seq<(K, int)>)
    requires Distinct(s) && |s| > 0
    ensures Remove(s, Last(s).0) + [Last(s)] == s
  {
    DistinctLast(s);
    RemoveFreshLast(s[..|s| - 1], Last(s));
    assert s[..|s| - 1] + [Last(s)] == s;
  }

  /** Removing the key of a last entry whose key is fresh leaves what came before it. */
  lemma RemoveFreshLast<K(!new)>(t: seq<(K, int)>, x: (K, int))
    requires x.0 !in Keys(t)
    ensures Remove(t + [x], x.0) == t
  {
    RemoveSnoc(t, x.0, x.1);
    assert Remove(t, x.0) == t;
  }

  /** Removing a key keeps the keys distinct, and removes exactly one entry when the key is present. */
  lemma {:induction false} DistinctRemove<K(!new)>(s: seq<(K, int)>, k: K)
    requires Distinct(s)
    ensures Distinct(Remove(s, k))
    ensures k in Keys(s) ==> |Remove(s, k)| == |s| - 1
  {
    if |s| > 0 {
      var t := s[1..];
      assert Distinct(t);
      DistinctRemove(t, k);
      DistinctHead(s);
      if s[0].0 != k {
        assert s[0].0 !in Keys(Remove(t, k));
        DistinctCons(s[0], Remove(t, k));
        assert k in Keys(s) ==> k in Keys(t) by {
          if k in Keys(s) {
            var e :| e in s && e.0 == k;
            assert e == s[0] || e in t;
          }
        }
      } else {
        assert Remove(t, k) == t;
      }
    }
  }

  /** Removing the key of a final entry with that key is removing the key before it was appended. */
  lemma {:induction false} RemoveSnoc<K(!new)>(t: seq<(K, int)>, k: K, v: int)
    ensures Remove(t + [(k, v)], k) == Remove(t, k)
  {
    if |t| == 0 {
      assert Remove([(k, v)], k) == [] + Remove([(k, v)][1..], k);
    } else {
      assert (t + [(k, v)])[1..] == t[1..] + [(k, v)];
      RemoveSnoc(t[1..], k, v);
    }
  }

  /** Deleting one more key from a filtered sequence is filtering by one more key. */
  lemma {:induction false} RemoveWithoutKeys<K(!new)>(s: seq<(K, int)>, ks: set<K>, k: K)
    ensures Remove(WithoutKeys(s, ks), k) == WithoutKeys(s, ks + {k})
  {
    if |s| > 0 {
      var t := s[1..];
      RemoveWithoutKeys(t, ks, k);
      var w := WithoutKeys(t, ks);
      if s[0].0 in ks {
        assert WithoutKeys(s, ks) == w;
        assert WithoutKeys(s, ks + {k}) == WithoutKeys(t, ks + {k});
      } else {
        var x := [s[0]] + w;
        assert WithoutKeys(s, ks) == x;
        assert x[0] == s[0] && x[1..] == w;
        assert Remove(x, k) == (if s[0].0 == k then [] else [s[0]]) + Remove(w, k);
      }
    }
  }

  lemma {:induction false} WithoutNoKeys<K(!new)>(s: seq<(K, int)>)
    ensures WithoutKeys(s, {}) == s
  {
    if |s| > 0 {
      WithoutNoKeys(s[1..]);
      assert s == [s[0]] + s[1..];
    }
  }

  /**
   `get(key)`: on a hit, the stored value, and the key moves to the most recent
   position while every other entry keeps its place relative to the rest; on a
   miss, the sentinel and an unchanged store.
   */
  function Get<K(==,!new)>(c: Cache<K>, k: K): (out: (Cache<K>, int))
    requires Valid(c)
    ensures Valid(out.0) && out.0.capacity == c.capacity
    ensures forall e :: e in out.0.entries <==> e in c.entries
    ensures k in Keys(c.entries) ==>
      && (k, out.1) in c.entries
      && |out.0.entries| == |c.entries|
      && Last(out.0.entries) == (k, out.1)
      && Remove(out.0.entries, k) == Remove(c.entries, k)
    ensures k !in Keys(c.entries) ==> out == (c, Miss)
  {
    match Lookup(c.entries, k)
    case None => (c, Miss)
    case Some(v) =>
      DistinctRemove(c.entries, k);
      DistinctSnoc(Remove(c.entries, k), (k, v));
      RemoveSnoc(Remove(c.entries, k), k, v);
      (Cache(c.capacity, Remove(c.entries, k) + [(k, v)]), v)
  }

  /**
   `put(key, value)`: the key is stored with the new value as the most recent
   entry; when the store then holds more than `capacity` entries, the least
   recent one is dropped.
   */
  function Put<K(==,!new)>(c: Cache<K>, k: K, v: int): (c': Cache<K>)
    requires Valid(c)
    ensures Valid(c') && c'.capacity == c.capacity
    ensures forall e :: e in c'.entries ==> e == (k, v) || e in c.entries
    ensures Bounded(c) ==> Bounded(c')
    ensures c.capacity >= 1 ==> |c'.entries| > 0 && Last(c'.entries) == (k, v)
    ensures Bounded(c) && k in Keys(c.entries) ==>
      && |c'.entries| == |c.entries|
      && Remove(c'.entries, k) == Remove(c.entries, k)
    ensures k !in Keys(c.entries) && |c.entries| < c.capacity ==>
      && |c'.entries| == |c.entries| + 1
      && Remove(c'.entries, k) == c.entries
    ensures k !in Keys(c.entries) && |c.entries| == c.capacity >= 1 ==>
      && |c'.entries| == |c.entries|
      && Remove(c'.entries, k) == c.entries[1..]
  {
    var kept := Remove(c.entries, k);
    DistinctRemove(c.entries, k);
    var moved := kept + [(k, v)];
    if |moved| > c.capacity then
      EvictFront(kept, k, v);
      Cache(c.capacity, moved[1..])
    else
      AppendFresh(kept, k, v);
      Cache(c.capacity, moved)
  }

  /** Dropping the least recent entry after appending a fresh key. */
  lemma EvictFront<K(!new)>(t: seq<(K, int)>, k: K, v: int)
    requires Distinct(t) && k !in Keys(t)
    ensures Distinct((t + [(k, v)])[1..])
    ensures forall e :: e in (t + [(k, v)])[1..] ==> e == (k, v) || e in t
    ensures |t| > 0 ==> Remove((t + [(k, v)])[1..], k) == t[1..]
  {
    if |t| > 0 {
      assert (t + [(k, v)])[1..] == t[1..] + [(k, v)];
      assert forall e :: e in t[1..] ==> e in t;
      AppendFresh(t[1..], k, v);
    }
  }

  /** Appending an entry under a fresh key keeps the keys distinct and is undone by removing that key. */
  lemma AppendFresh<K(!new)>(t: seq<(K, int)>, k: K, v: int)
    requires Distinct(t) && k !in Keys(t)
    ensures Distinct(t + [(k, v)])
    ensures Remove(t + [(k, v)], k) == t
  {
    DistinctSnoc(t, (k, v));
    RemoveSnoc(t, k, v);
  }

  /** `del cache[key]` on a present key: the entry is gone and nothing else changes. */
  function Delete<K(==,!new)>(c: Cache<K>, k: K): (c': Cache<K>)
    requires Valid(c) && k in Keys(c.entries)
    ensures Valid(c') && c'.capacity == c.capacity
    ensures |c'.entries| == |c.entries| - 1
    ensures Keys(c'.entries) == Keys(c.entries) - {k}
    ensures forall e :: e in c'.entries <==> e in c.entries && e.0 != k
    ensures Sublist(c'.entries, c.entries)
  {
    DistinctRemove(c.entries, k);
    Cache(c.capacity, Remove(c.entries, k))
  }

  /**
   A hit protects its key from the next eviction: after `get(k)` hits, a `put`
   of a new key into a full store of capacity at least two evicts some other key.
   */
  lemma GetProtectsFromNextEviction<K(!new)>(c: Cache<K>, k: K, k2: K, v: int)
    requires Valid(c) && Bounded(c) && c.capacity >= 2
    requires k in Keys(c.entries) && k2 != k
    ensures k in Keys(Put(Get(c, k).0, k2, v).entries)
  {
    var c1 := Get(c, k).0;
    var c2 := Put(c1, k2, v);
    assert (k, Get(c, k).1) in c1.entries;
    if k2 in Keys(c1.entries) || |c1.entries| < c1.capacity {
      assert Remove(c2.entries, k2) == Remove(c1.entries, k2);
      assert (k, Get(c, k).1) in Remove(c1.entries, k2);
    } else {
      assert Remove(c2.entries, k2) == c1.entries[1..];
      assert Last(c1.entries) in c1.entries[1..];
    }
  }

  /** `put` applied to each `(key, value)` pair of `ps` in turn. */
  function PutAll<K(==,!new)>(c: Cache<K>, ps: seq<(K, int)>): (c': Cache<K>)
    requires Valid(c)
    ensures Valid(c') && c'.capacity == c.capacity
    ensures forall e :: e in c'.entries ==> e in c.entries || e in ps
    decreases |ps|
  {
    if |ps| == 0 then c
    else
      var c1 := Put(c, ps[0].0, ps[0].1);
      var r := PutAll(c1, ps[1..]);
      assert forall e :: e in ps[1..] ==> e in ps;
      r
  }

  /**
   A hit protects its key until `capacity` other keys have been put: after
   `get(k)` hits, fewer than `capacity` puts of other keys never evict `k`.
   */
  lemma HitSurvivesPuts<K(!new)>(c: Cache<K>, k: K, ps: seq<(K, int)>)
    requires Valid(c) && k in Keys(c.entries)
    requires |ps| < c.capacity && forall x :: x in ps ==> x.0 != k
    ensures k in Keys(PutAll(Get(c, k).0, ps).entries)
  {
    var c1 := Get(c, k).0;
    var n := |c1.entries|;
    var p, q := c1.entries[..n - 1], [c1.entries[n - 1]];
    assert c1.entries == p + q;
    assert q[0] == (k, Get(c, k).1);
    PutAllKeepsSuffix(c1, ps, k, p, q);
  }

  /**
   While `k` lies in a suffix `q` of the entries, puts of other keys keep it,
   as long as the suffix, grown by one per put, fits in the capacity.
   */
  lemma {:induction false} PutAllKeepsSuffix<K(!new)>(c: Cache<K>, ps: seq<(K, int)>, k: K, p: seq<(K, int)>, q: seq<(K, int)>)
    requires Valid(c) && c.entries == p + q && k in Keys(q)
    requires |q| + |ps| <= c.capacity && forall x :: x in ps ==> x.0 != k
    ensures k in Keys(PutAll(c, ps).entries)
    decreases |ps|
  {
    if |ps| == 0 {
      assert forall e :: e in q ==> e in c.entries;
    } else {
      assert ps[0] in ps;
      var p', q' := PutKeepsSuffix(c, ps[0].0, ps[0].1, k, p, q);
      assert forall x :: x in ps[1..] ==> x in ps;
      PutAllKeepsSuffix(Put(c, ps[0].0, ps[0].1), ps[1..], k, p', q');
    }
  }

  /** One put of another key: `k` stays in a suffix at most one entry longer. */
  lemma PutKeepsSuffix<K(!new)>(c: Cache<K>, j: K, v: int, k: K, p: seq<(K, int)>, q: seq<(K, int)>)
      returns (p': seq<(K, int)>, q': seq<(K, int)>)
    requires Valid(c) && c.entries == p + q && k in Keys(q)
    requires j != k && |q| < c.capacity
    ensures Put(c, j, v).entries == p' + q' && k in Keys(q') && |q'| <= |q| + 1
  {
    PutShape(c, j, v);
    p', q' := MoveKeepsSuffix(p, q, j, v, k, c.capacity);
  }

  /** The sequence form of `PutKeepsSuffix`. */
  lemma MoveKeepsSuffix<K(!new)>(p: seq<(K, int)>, q: seq<(K, int)>, j: K, v: int, k: K, cap: int)
      returns (p': seq<(K, int)>, q': seq<(K, int)>)
    requires k in Keys(q) && j != k && |q| < cap
    ensures var moved := Remove(p + q, j) + [(j, v)];
      (if |moved| > cap then moved[1..] else moved) == p' + q'
    ensures k in Keys(q') && |q'| <= |q| + 1
  {
    RemoveConcat(p, q, j);
    var rp, rq := Remove(p, j), Remove(q, j);
    q' := rq + [(j, v)];
    OtherKeyStays(q, j, v, k);
    assert Remove(p + q, j) + [(j, v)] == rp + q';
    p' := DropFrontKeepsSuffix(rp, q', cap);
  }

  /** Moving another key to the end keeps `k` and grows the sequence by at most one. */
  lemma OtherKeyStays<K(!new)>(q: seq<(K, int)>, j: K, v: int, k: K)
    requires k in Keys(q) && j != k
    ensures k in Keys(Remove(q, j) + [(j, v)]) && |Remove(q, j) + [(j, v)]| <= |q| + 1
  {
  }

  /** Dropping the front of `r + t` when it is over `cap` leaves `t` intact if `t` fits. */
  lemma DropFrontKeepsSuffix<T>(r: seq<T>, t: seq<T>, cap: int) returns (r': seq<T>)
    requires |t| <= cap
    ensures (if |r + t| > cap then (r + t)[1..] else r + t) == r' + t
  {
    if |r + t| > cap {
      r' := r[1..];
      assert (r + t)[1..] == r' + t;
    } else {
      r' := r;
    }
  }

  /** The entries after a put: the key moved to the end, then the front dropped if over capacity. */
  lemma PutShape<K(!new)>(c: Cache<K>, k: K, v: int)
    requires Valid(c)
    ensures var moved := Remove(c.entries, k) + [(k, v)];
      Put(c, k, v).entries == if |moved| > c.capacity then moved[1..] else moved
  {
  }

  /** Removing a key from a concatenation removes it from each part. */
  lemma {:induction false} RemoveConcat<K(!new)>(p: seq<(K, int)>, q: seq<(K, int)>, k: K)
    ensures Remove(p + q, k) == Remove(p, k) + Remove(q, k)
  {
    if |p| == 0 {
      assert p + q == q;
    } else {
      assert (p + q)[0] == p[0] && (p + q)[1..] == p[1..] + q;
      RemoveConcat(p[1..], q, k);
    }
  }
}

=== FILE: range_cache.dfy ===
/**
 The range-sum layer of task_01/task_01.py: inclusive range sums over an integer
 array, with and without an LRU store of earlier answers keyed by `(left, right)`.

 The source keeps one store in a module-level variable; here the store is an
 explicit value that every cached operation takes and returns. The array is a
 value as well, so an in-place assignment becomes a function returning the new
 array.
 */
module RangeCache {
  import opened Lru

  /** A cached query: the inclusive bounds `(left, right)`. */
  type Key = (int, int)

  type Store = Cache<Key>

  /** Capacity of the store the source creates at module load. */
  const Capacity: int := 1000

  /** The store the source starts from: empty, with room for `Capacity` answers. */
  function NewStore(): (c: Store)
    ensures Valid(c) && Bounded(c) && c.capacity == Capacity
    ensures forall a :: Consistent(c, a)
  {
    Init(Capacity)
  }

  /** An update of `index` changes the answer cached under `key`. */
  predicate Covers(key: Key, index: int)
  {
    key.0 <= index <= key.1
  }

  /** The built-in `sum` over a list of integers. */
  function SumOf(s: seq<int>): int
  {
    if |s| == 0 then 0 else s[0] + SumOf(s[1..])
  }

  lemma {:induction false} SumOfSnoc(s: seq<int>, x: int)
    ensures SumOf(s + [x]) == SumOf(s) + x
  {
    if |s| > 0 {
      assert (s + [x])[1..] == s[1..] + [x];
      SumOfSnoc(s[1..], x);
    }
  }

  /** The true answer to the query `(left, right)` on `a`: the sum of `a[left..right]`, both ends included. */
  function TrueSum(a: seq<int>, left: int, right: int): int
    requires 0 <= left <= right < |a|
  {
    SumOf(a[left..right + 1])
  }

  /** `range_sum_no_cache`: adds up the elements from `left` to `right` one by one. */
  method RangeSumNoCache(a: seq<int>, left: int, right: int) returns (total: int)
    requires 0 <= left <= right < |a|
    ensures total == TrueSum(a, left, right)
  {
    total := 0;
    var i := left;
    while i <= right
      invariant left <= i <= right + 1
      invariant total == SumOf(a[left..i])
    {
      assert a[left..i + 1] == a[left..i] + [a[i]];
      SumOfSnoc(a[left..i], a[i]);
      total := total + a[i];
      i := i + 1;
    }
  }

  /** `update_no_cache`: the array with `value` at `index` and every other element as it was. */
  function UpdateNoCache(a: seq<int>, index: int, value: int): (a': seq<int>)
    requires 0 <= index < |a|
    ensures |a'| == |a| && a'[index] == value
    ensures forall j :: 0 <= j < |a| && j != index ==> a'[j] == a[j]
  {
    a[index := value]
  }

  /** A range that does not contain the updated index has the same sum before and after. */
  lemma UpdateOutsideRange(a: seq<int>, index: int, value: int, left: int, right: int)
    requires 0 <= index < |a| && 0 <= left <= right < |a|
    requires !Covers((left, right), index)
    ensures TrueSum(UpdateNoCache(a, index, value), left, right) == TrueSum(a, left, right)
  {
    assert UpdateNoCache(a, index, value)[left..right + 1] == a[left..right + 1];
  }

  /** The cached entry is the true answer to its own query on `a`. */
  predicate EntryCorrect(e: (Key, int), a: seq<int>)
  {
    0 <= e.0.0 <= e.0.1 < |a| && e.1 == TrueSum(a, e.0.0, e.0.1)
  }

  /** Every cached answer is the true answer on the current array. */
  predicate Consistent(c: Store, a: seq<int>)
  {
    forall e :: e in c.entries ==> EntryCorrect(e, a)
  }

  /**
   `range_sum_with_cache`: looks the key up; on the sentinel, computes the sum
   and stores it. A hit answers with the cached value, a miss (an absent key or
   a stored -1) with the true sum, and on a consistent store both are the true
   sum and the store stays consistent; the queried key ends as the most recent
   entry.
   */
  function RangeSumWithCache(c: Store, a: seq<int>, left: int, right: int): (out: (Store, int))
    requires Valid(c) && 0 <= left <= right < |a|
    ensures Valid(out.0) && out.0.capacity == c.capacity
    ensures Bounded(c) ==> Bounded(out.0)
    ensures forall v :: ((left, right), v) in c.entries && v != Miss ==> out.1 == v
    ensures forall v :: ((left, right), v) in c.entries && v != Miss ==>
              |out.0.entries| == |c.entries| && Remove(out.0.entries, (left, right)) == Remove(c.entries, (left, right))
    ensures (forall v :: ((left, right), v) in c.entries ==> v == Miss) ==> out.1 == TrueSum(a, left, right)
    ensures Consistent(c, a) ==> out.1 == TrueSum(a, left, right) && Consistent(out.0, a)
    ensures c.capacity >= 1 ==> |out.0.entries| > 0 && Last(out.0.entries) == ((left, right), out.1)
  {
    var key := (left, right);
    var (c1, result) := Get(c, key);
    if result == Miss then
      var total := TrueSum(a, left, right);
      (Put(c1, key, total), total)
    else
      assert forall v :: (key, v) in c.entries ==> v == result by {
        forall v | (key, v) in c.entries
          ensures v == result
        {
          DistinctSameKey(c.entries, key, v, result);
        }
      }
      (c1, result)
  }

  /** In a store with distinct keys, a key has one value. */
  lemma DistinctSameKey(s: seq<(Key, int)>, key: Key, v: int, w: int)
    requires Distinct(s) && (key, v) in s && (key, w) in s
    ensures v == w
  {
    var i :| 0 <= i < |s| && s[i] == (key, v);
    var j :| 0 <= j < |s| && s[j] == (key, w);
    assert !(i < j) && !(j < i);
  }

  /** The cached entries that survive an update of `index`, in their original order. */
  function Invalidate(s: seq<(Key, int)>, index: int): (r: seq<(Key, int)>)
    ensures forall e :: e in r <==> e in s && !Covers(e.0, index)
    ensures |r| <= |s|
    ensures Sublist(r, s)
    ensures Distinct(s) ==> Distinct(r)
  {
    if |s| == 0 then []
    else
      assert forall e :: e in s ==> e == s[0] || e in s[1..];
      var rest := Invalidate(s[1..], index);
      if Covers(s[0].0, index) then
        SublistSkip(s, rest);
        rest
      else
        SublistKeep(s, rest);
        assert Distinct(s) ==> Distinct([s[0]] + rest) by {
          if Distinct(s) {
            DistinctHead(s);
            DistinctCons(s[0], rest);
          }
        }
        [s[0]] + rest
  }

  /**
   `update_with_cache`: assigns the element and drops every cached range that
   contains `index`. Ranges that do not contain it stay, with their values and
   in their order, and a consistent store stays consistent with the new array.
   */
  function UpdateWithCache(c: Store, a: seq<int>, index: int, value: int): (out: (Store, seq<int>))
    requires Valid(c) && 0 <= index < |a|
    ensures out.1 == UpdateNoCache(a, index, value)
    ensures Valid(out.0) && out.0.capacity == c.capacity
    ensures Bounded(c) ==> Bounded(out.0)
    ensures forall key :: key in Keys(out.0.entries) ==> !Covers(key, index)
    ensures forall e :: e in out.0.entries <==> e in c.entries && !Covers(e.0, index)
    ensures Sublist(out.0.entries, c.entries)
    ensures Consistent(c, a) ==> Consistent(out.0, out.1)
  {
    var a' := UpdateNoCache(a, index, value);
    var c' := Cache(c.capacity, Invalidate(c.entries, index));
    assert Consistent(c, a) ==> Consistent(c', a') by {
      if Consistent(c, a) {
        forall e | e in c'.entries
          ensures EntryCorrect(e, a')
        {
          UpdateOutsideRange(a, index, value, e.0.0, e.0.1);
        }
      }
    }
    (c', a')
  }

  /** Filtering by a key set that holds exactly the covering keys is invalidation. */
  lemma {:induction false} InvalidateAsWithoutKeys(s: seq<(Key, int)>, index: int, ks: set<Key>)
    requires forall e :: e in s ==> (e.0 in ks <==> Covers(e.0, index))
    ensures Invalidate(s, index) == WithoutKeys(s, ks)
  {
    if |s| > 0 {
      assert s[0] in s;
      assert forall e :: e in s[1..] ==> e in s;
      InvalidateAsWithoutKeys(s[1..], index, ks);
    }
  }

  /** The keys listed in `ks`. */
  function Elements(ks: seq<Key>): set<Key>
  {
    set k | k in ks
  }

  /**
   The first pass of the invalidation scan: the keys of the store whose range
   contains `index`, each once.
   */
  method CollectCovering(s: seq<(Key, int)>, index: int) returns (keys: seq<Key>)
    requires Distinct(s)
    ensures forall e :: e in s ==> (e.0 in keys <==> Covers(e.0, index))
    ensures forall p :: 0 <= p < |keys| ==> keys[p] in Keys(s)
    ensures forall p, q :: 0 <= p < q < |keys| ==> keys[p] != keys[q]
  {
    keys := [];
    var i := 0;
    while i < |s|
      invariant 0 <= i <= |s|
      invariant forall p :: 0 <= p < |keys| ==> keys[p] in Keys(s[..i]) && Covers(keys[p], index)
      invariant forall j :: 0 <= j < i && Covers(s[j].0, index) ==> s[j].0 in keys
      invariant forall p, q :: 0 <= p < q < |keys| ==> keys[p] != keys[q]
    {
      var (l, r) := s[i].0;
      if l <= index <= r {
        assert s[i].0 !in Keys(s[..i]) by {
          DistinctLast(s[..i + 1]);
          assert s[..i + 1][..i] == s[..i];
        }
        keys := keys + [(l, r)];
      }
      assert forall k :: k in Keys(s[..i]) ==> k in Keys(s[..i + 1]) by {
        assert forall e :: e in s[..i] ==> e in s[..i + 1];
      }
      assert s[i] in s[..i + 1];
      i := i + 1;
    }
    assert s[..i] == s;
    forall e | e in s
      ensures e.0 in keys <==> Covers(e.0, index)
    {
      var p :| 0 <= p < |s| && s[p] == e;
    }
  }

  /** One `del` of the second pass, on the store filtered by the keys deleted so far. */
  lemma DeleteStep(s: seq<(Key, int)>, keys: seq<Key>, j: int)
    requires 0 <= j < |keys| && keys[j] in Keys(s)
    requires forall p :: 0 <= p < j ==> keys[p] != keys[j]
    ensures keys[j] in Keys(WithoutKeys(s, Elements(keys[..j])))
    ensures Remove(WithoutKeys(s, Elements(keys[..j])), keys[j]) == WithoutKeys(s, Elements(keys[..j + 1]))
  {
    NotYetDeleted(keys, j);
    KeyOutsideFilterKept(s, Elements(keys[..j]), keys[j]);
    RemoveWithoutKeys(s, Elements(keys[..j]), keys[j]);
    ElementsSnoc(keys, j);
  }

  lemma NotYetDeleted(keys: seq<Key>, j: int)
    requires 0 <= j < |keys|
    requires forall p :: 0 <= p < j ==> keys[p] != keys[j]
    ensures keys[j] !in Elements(keys[..j])
  {
  }

  lemma ElementsSnoc(keys: seq<Key>, j: int)
    requires 0 <= j < |keys|
    ensures Elements(keys[..j + 1]) == Elements(keys[..j]) + {keys[j]}
  {
    assert keys[..j + 1] == keys[..j] + [keys[j]];
  }

  lemma KeyOutsideFilterKept(s: seq<(Key, int)>, ks: set<Key>, k: Key)
    requires k in Keys(s) && k !in ks
    ensures k in Keys(WithoutKeys(s, ks))
  {
    var e :| e in s && e.0 == k;
    assert e in WithoutKeys(s, ks);
  }

  /**
   The second pass of the invalidation scan: `del` of each collected key, one
   after the other. The store ends without exactly those keys.
   */
  method DeleteAll(c: Store, keys: seq<Key>) returns (c': Store)
    requires Valid(c)
    requires forall p :: 0 <= p < |keys| ==> keys[p] in Keys(c.entries)
    requires forall p, q :: 0 <= p < q < |keys| ==> keys[p] != keys[q]
    ensures c' == Cache(c.capacity, WithoutKeys(c.entries, Elements(keys)))
  {
    c' := c;
    WithoutNoKeys(c.entries);
    assert Elements(keys[..0]) == {};
    var j := 0;
    while j < |keys|
      invariant 0 <= j <= |keys|
      invariant Valid(c') && c'.capacity == c.capacity
      invariant c'.entries == WithoutKeys(c.entries, Elements(keys[..j]))
    {
      DeleteStep(c.entries, keys, j);
      c' := Delete(c', keys[j]);
      j := j + 1;
    }
    ElementsAll(keys);
  }

  lemma ElementsAll(keys: seq<Key>)
    ensures Elements(keys[..|keys|]) == Elements(keys)
  {
    assert keys[..|keys|] == keys;
  }

  /**
   `update_with_cache` as the source performs it: assign the element, collect
   the keys whose range contains `index`, then delete them one by one. The
   result is the one `UpdateWithCache` describes.
   */
  method UpdateWithCacheScan(c: Store, a: seq<int>, index: int, value: int) returns (c': Store, a': seq<int>)
    requires Valid(c) && 0 <= index < |a|
    ensures (c', a') == UpdateWithCache(c, a, index, value)
  {
    a' := a[index := value];
    var keysToDelete := CollectCovering(c.entries, index);
    c' := DeleteAll(c, keysToDelete);
    InvalidateAsWithoutKeys(c.entries, index, Elements(keysToDelete));
  }

  /**
   A cached answer equal to the sentinel is recomputed, and the recomputation
   gives back the same value and leaves the store exactly as a hit would.
   */
  lemma SentinelValueStillCorrect(c: Store, a: seq<int>, left: int, right: int)
    requires Valid(c) && Bounded(c) && Consistent(c, a) && 0 <= left <= right < |a|
    requires ((left, right), Miss) in c.entries
    ensures RangeSumWithCache(c, a, left, right).1 == Miss
    ensures RangeSumWithCache(c, a, left, right).0 == Get(c, (left, right)).0
  {
    var key := (left, right);
    assert key in Keys(c.entries);
    var (c1, g) := Get(c, key);
    assert g == Miss by {
      DistinctSameKey(c.entries, key, g, Miss);
    }
    assert EntryCorrect((key, Miss), a);
    StoreSameValue(c1, key);
  }

  /**
   A stored -1 is recomputed on any store, consistent with the array or not: the
   range moves to the most recent end with its true sum, and every other entry
   keeps its value and its place.
   */
  lemma StoredSentinelRecomputed(c: Store, a: seq<int>, left: int, right: int)
    requires Valid(c) && Bounded(c) && 0 <= left <= right < |a|
    requires ((left, right), Miss) in c.entries
    ensures RangeSumWithCache(c, a, left, right)
         == (Cache(c.capacity, Remove(c.entries, (left, right)) + [((left, right), TrueSum(a, left, right))]),
             TrueSum(a, left, right))
  {
  }

  /** Putting the most recent entry back with its own value changes nothing. */
  lemma StoreSameValue(c: Store, key: Key)
    requires Valid(c) && Bounded(c) && |c.entries| > 0 && Last(c.entries).0 == key
    ensures Put(c, key, Last(c.entries).1) == c
  {
    RemoveLast(c.entries);
  }

  /** A hit on the most recent entry changes nothing. */
  lemma GetLastUnchanged(c: Store, key: Key)
    requires Valid(c) && |c.entries| > 0 && Last(c.entries).0 == key
    ensures Get(c, key) == (c, Last(c.entries).1)
  {
    var x := Last(c.entries);
    assert x in c.entries;
    var (c1, g) := Get(c, key);
    DistinctSameKey(c.entries, key, g, x.1);
    RemoveLast(c.entries);
    RemoveLast(c1.entries);
  }

  /**
   Two identical queries in a row, with no update between them, give the same
   answer, and the second leaves the store as the first left it.
   */
  lemma RepeatedQueryStable(c: Store, a: seq<int>, left: int, right: int)
    requires Valid(c) && Bounded(c) && c.capacity >= 1 && 0 <= left <= right < |a|
    ensures RangeSumWithCache(RangeSumWithCache(c, a, left, right).0, a, left, right)
         == RangeSumWithCache(c, a, left, right)
  {
    var key := (left, right);
    var (c1, s1) := RangeSumWithCache(c, a, left, right);
    GetLastUnchanged(c1, key);
    if s1 == Miss {
      assert s1 == TrueSum(a, left, right);
      StoreSameValue(c1, key);
    }
  }

  /**
   A hit on a value other than the sentinel answers with it and moves the
   queried range to the most recent end; the other entries keep their order.
   */
  lemma HitMovesToEnd(c: Store, a: seq<int>, left: int, right: int, v: int)
    requires Valid(c) && 0 <= left <= right < |a|
    requires ((left, right), v) in c.entries && v != Miss
    ensures RangeSumWithCache(c, a, left, right)
         == (Cache(c.capacity, Remove(c.entries, (left, right)) + [((left, right), v)]), v)
  {
  }

  /** A miss on a store with room appends the new answer as the most recent entry. */
  lemma MissWithRoom(c: Store, a: seq<int>, left: int, right: int)
    requires Valid(c) && 0 <= left <= right < |a|
    requires (left, right) !in Keys(c.entries) && |c.entries| < c.capacity
    ensures RangeSumWithCache(c, a, left, right)
         == (Cache(c.capacity, c.entries + [((left, right), TrueSum(a, left, right))]), TrueSum(a, left, right))
  {
  }

  /** A miss on a full store drops the least recent entry and appends the new answer. */
  lemma MissWhenFull(c: Store, a: seq<int>, left: int, right: int)
    requires Valid(c) && 0 <= left <= right < |a|
    requires (left, right) !in Keys(c.entries) && |c.entries| == c.capacity >= 1
    ensures RangeSumWithCache(c, a, left, right)
         == (Cache(c.capacity, c.entries[1..] + [((left, right), TrueSum(a, left, right))]), TrueSum(a, left, right))
  {
    assert (c.entries + [((left, right), TrueSum(a, left, right))])[1..]
        == c.entries[1..] + [((left, right), TrueSum(a, left, right))];
  }

  /**
   A worked run with room for two answers on `[1, 2, 3, 4, 5]`, one lemma per
   call; each lemma takes the array and the store the previous call left.
   First, the range sums the run needs.
   */
  lemma ScenarioSums(a: seq<int>, a': seq<int>)
    requires a == [1, 2, 3, 4, 5] && a' == [1, 2, 10, 4, 5]
    ensures TrueSum(a, 0, 2) == 6 && TrueSum(a, 3, 4) == 9 && TrueSum(a, 1, 3) == 9
    ensures TrueSum(a', 1, 3) == 16
  {
    SumOfThree(a[0..3]);
    SumOfThree(a[1..4]);
    SumOfThree(a'[1..4]);
    SumOfTwo(a[3..5]);
  }

  lemma SumOfTwo(s: seq<int>)
    requires |s| == 2
    ensures SumOf(s) == s[0] + s[1]
  {
    assert SumOf(s[1..]) == s[1] + SumOf(s[2..]);
  }

  lemma SumOfThree(s: seq<int>)
    requires |s| == 3
    ensures SumOf(s) == s[0] + s[1] + s[2]
  {
    SumOfTwo(s[1..]);
  }

  /** `(0, 2)` on an empty store: a miss, answered with 6 and stored. */
  lemma ScenarioFirstMiss(c: Store, a: seq<int>)
    requires c == Init(2) && a == [1, 2, 3, 4, 5]
    ensures RangeSumWithCache(c, a, 0, 2) == (Cache(2, [((0, 2), 6)]), 6)
  {
    ScenarioSums(a, [1, 2, 10, 4, 5]);
    MissWithRoom(c, a, 0, 2);
    assert c.entries + [((0, 2), 6)] == [((0, 2), 6)];
  }

  /** `(0, 2)` again: a hit, and nothing changes. */
  lemma ScenarioHit(c: Store, a: seq<int>)
    requires c == Cache(2, [((0, 2), 6)]) && a == [1, 2, 3, 4, 5]
    ensures RangeSumWithCache(c, a, 0, 2) == (c, 6)
  {
    GetLastUnchanged(c, (0, 2));
  }

  /** `(3, 4)`: a miss, stored after `(0, 2)`; the store is now full. */
  lemma ScenarioSecondMiss(c: Store, a: seq<int>)
    requires c == Cache(2, [((0, 2), 6)]) && a == [1, 2, 3, 4, 5]
    ensures RangeSumWithCache(c, a, 3, 4) == (Cache(2, [((0, 2), 6), ((3, 4), 9)]), 9)
  {
    ScenarioSums(a, [1, 2, 10, 4, 5]);
    assert c.entries[0] == ((0, 2), 6);
    assert (3, 4) !in Keys(c.entries);
    MissWithRoom(c, a, 3, 4);
    assert c.entries + [((3, 4), 9)] == [((0, 2), 6), ((3, 4), 9)];
  }

  /** `(1, 3)` on the full store: a miss that evicts the least recent `(0, 2)`. */
  lemma ScenarioEviction(c: Store, a: seq<int>)
    requires c == Cache(2, [((0, 2), 6), ((3, 4), 9)]) && a == [1, 2, 3, 4, 5]
    ensures RangeSumWithCache(c, a, 1, 3) == (Cache(2, [((3, 4), 9), ((1, 3), 9)]), 9)
  {
    ScenarioSums(a, [1, 2, 10, 4, 5]);
    assert c.entries[0] == ((0, 2), 6) && c.entries[1] == ((3, 4), 9);
    assert Keys(c.entries) == {(0, 2), (3, 4)};
    assert Valid(c);
    MissWhenFull(c, a, 1, 3);
    var rest := c.entries[1..];
    assert rest == [((3, 4), 9)];
    assert rest + [((1, 3), 9)] == [((3, 4), 9), ((1, 3), 9)];
  }

  /** Setting index 2 to 10 drops `(1, 3)`, which contains it, and keeps `(3, 4)`. */
  lemma ScenarioUpdate(c: Store, a: seq<int>)
    requires c == Cache(2, [((3, 4), 9), ((1, 3), 9)]) && a == [1, 2, 3, 4, 5]
    ensures UpdateWithCache(c, a, 2, 10) == (Cache(2, [((3, 4), 9)]), [1, 2, 10, 4, 5])
  {
    assert Invalidate(c.entries[1..], 2) == [];
    assert Invalidate(c.entries, 2) == [((3, 4), 9)];
    assert a[2 := 10] == [1, 2, 10, 4, 5];
  }

  /** `(1, 3)` after the update: a miss, recomputed on the new array as 16. */
  lemma ScenarioRecompute(c: Store, a: seq<int>)
    requires c == Cache(2, [((3, 4), 9)]) && a == [1, 2, 10, 4, 5]
    ensures RangeSumWithCache(c, a, 1, 3) == (Cache(2, [((3, 4), 9), ((1, 3), 16)]), 16)
  {
    ScenarioSums([1, 2, 3, 4, 5], a);
    assert c.entries[0] == ((3, 4), 9);
    assert (1, 3) !in Keys(c.entries);
    MissWithRoom(c, a, 1, 3);
    assert c.entries + [((1, 3), 16)] == [((3, 4), 9), ((1, 3), 16)];
  }

  /** One operation in a call of the benchmark drivers. */
  datatype Query = Range(left: int, right: int) | Update(index: int, value: int)

  /** The query is within the bounds of an array of length `n`. */
  predicate Fits(q: Query, n: int)
  {
    match q
    case Range(l, r) => 0 <= l <= r < n
    case Update(i, _) => 0 <= i < n
  }

  /** The number of `Range` queries in `qs`. */
  function RangeCount(qs: seq<Query>): nat
  {
    if |qs| == 0 then 0 else (if qs[0].Range? then 1 else 0) + RangeCount(qs[1..])
  }

  /** `run_no_cache`: the final array and the answers to the `Range` queries, in order. */
  function RunNoCache(a: seq<int>, qs: seq<Query>): (out: (seq<int>, seq<int>))
    requires forall q :: q in qs ==> Fits(q, |a|)
    ensures |out.0| == |a|
    ensures |out.1| == RangeCount(qs)
    decreases |qs|
  {
    if |qs| == 0 then (a, [])
    else
      assert qs[0] in qs && forall q :: q in qs[1..] ==> q in qs;
      assert Fits(qs[0], |a|);
      match qs[0]
      case Range(l, r) =>
        var rest := RunNoCache(a, qs[1..]);
        (rest.0, [TrueSum(a, l, r)] + rest.1)
      case Update(i, v) =>
        RunNoCache(UpdateNoCache(a, i, v), qs[1..])
  }

  /** `run_with_cache`: the final store, the final array and the answers to the `Range` queries. */
  function RunWithCache(c: Store, a: seq<int>, qs: seq<Query>): (out: (Store, seq<int>, seq<int>))
    requires Valid(c) && forall q :: q in qs ==> Fits(q, |a|)
    ensures Valid(out.0) && out.0.capacity == c.capacity
    ensures Bounded(c) ==> Bounded(out.0)
    ensures |out.1| == |a|
    ensures |out.2| == RangeCount(qs)
    decreases |qs|
  {
    if |qs| == 0 then (c, a, [])
    else
      assert qs[0] in qs && forall q :: q in qs[1..] ==> q in qs;
      assert Fits(qs[0], |a|);
      match qs[0]
      case Range(l, r) =>
        var (c1, answer) := RangeSumWithCache(c, a, l, r);
        var rest := RunWithCache(c1, a, qs[1..]);
        (rest.0, rest.1, [answer] + rest.2)
      case Update(i, v) =>
        var (c1, a1) := UpdateWithCache(c, a, i, v);
        RunWithCache(c1, a1, qs[1..])
  }

  /**
   The cached run agrees with the uncached run on every query list: it ends with
   the same array and gives the same answers as the uncached run, and its store is
   still consistent with the array.
   */
  lemma {:induction false} CachedRunMatchesUncached(c: Store, a: seq<int>, qs: seq<Query>)
    requires Valid(c) && Consistent(c, a) && forall q :: q in qs ==> Fits(q, |a|)
    ensures RunWithCache(c, a, qs).1 == RunNoCache(a, qs).0
    ensures RunWithCache(c, a, qs).2 == RunNoCache(a, qs).1
    ensures Consistent(RunWithCache(c, a, qs).0, RunWithCache(c, a, qs).1)
    decreases |qs|
  {
    if |qs| > 0 {
      assert qs[0] in qs && forall q :: q in qs[1..] ==> q in qs;
      assert Fits(qs[0], |a|);
      match qs[0]
      case Range(l, r) =>
        var (c1, _) := RangeSumWithCache(c, a, l, r);
        CachedRunMatchesUncached(c1, a, qs[1..]);
      case Update(i, v) =>
        var (c1, a1) := UpdateWithCache(c, a, i, v);
        CachedRunMatchesUncached(c1, a1, qs[1..]);
    }
  }

  /** From the store the source starts with, every answer of the cached run is the uncached one. */
  lemma FreshStoreRunMatchesUncached(a: seq<int>, qs: seq<Query>)
    requires forall q :: q in qs ==> Fits(q, |a|)
    ensures RunWithCache(NewStore(), a, qs).2 == RunNoCache(a, qs).1
    ensures Bounded(RunWithCache(NewStore(), a, qs).0)
  {
    CachedRunMatchesUncached(NewStore(), a, qs);
  }
}

=== FILE: wrappers.dfy ===
/** An optional value: the result of looking a key up in the LRU store. */
module Wrappers {

  /** `None` when the key is absent, `Some(value)` when it is stored. */
  datatype Option<+T> = None | Some(value: T)
}
